=== FILE: README.md ===
# Browser Pets, modelled in Dafny

Browser Pets is a browser extension that puts small animated pets on web pages.

- **Popup.** A pet picker, plus a "clear all pets" button.
- **Background relay.** Forwards a create-pet request from the popup to the active tab. It retries a bounded number of times with a linear back-off. It fans a reload-pets request out to every tab.
- **Content script.** Turns the relay's messages into custom events on the page.
- **Pet controller.** Listens for those events, keeps the page's list of pets, and saves it in `browser.storage.local`. The list lives under `"global-pets"` in global mode, or under `"pets-" + origin` in per-site mode.
- **Pet component.** Walks each pet along the bottom of the viewport. A click pauses or resumes it; a context-menu click deletes it.

The model covers these pieces:

- `Types` and `Storage` hold the shared records and messages, and the store as a map. The store comes with the JavaScript truthiness the code relies on and with the change notification the browser delivers.
- Each component is a module of pure functions over explicit state:
  - `Home`: the pet controller;
  - `PetMotion`: the pet component;
  - `Relay`: the background relay;
  - `Content`: the content script;
  - `Popup`: the popup.
- The retrying send is also a `method` with a loop, proved equal to a reference definition.
- `Pipeline` connects the modules end to end, using the handlers the page actually registers:
  - a pet click reaches the controller;
  - clear-all and a storage-mode change reach every page, with the per-site consequences of the stale handlers in Findings;
  - walking never writes to storage.

Everything the browser supplies is a parameter of the model:

- the tab query, and whether each delivery attempt resolves;
- the user's confirmation;
- `Date.now()`, `Math.random()` and `window.innerWidth`;
- animation frame timestamps;
- the page origin.

The pet's width and speed come from an asset file that is not part of this model, so they are parameters too.

Two behaviours of the source are easy to miss. The model follows the source in both:

- Keys are not always resolved from the current mode and origin. The create-pet and reload-pets handlers resolve them with the mode the controller started in (see Findings).
- The ping probe (`ensureContentScript`) is defined but never called. A create-pet request is sent with retries and no probe.

## Model

| member | source | states |
|---|---|---|
| Types.ModeName | types/index.ts:8 | each storage mode has a stored name that parses back to that mode |
| Types.ParseMode | types/index.ts:8 | exactly the strings "global" and "per-site" are storage modes |
| Types.ToRequest | types/index.ts:39-58 | the object a sender builds carries a payload iff it is a create-pet message, and classifies back as that message |
| Types.Classify | types/index.ts:39-58 | only the three actions classify as messages; a create-pet object without a payload is not a message |
| Types.ClassifyInvertsToRequest | types/index.ts:55-58 | a received object that classifies as a message has that message's action, and a create-pet object is exactly what its sender built |
| Storage.Diff | entrypoints/components/home.tsx:93-96 | the change notification has an entry exactly for the keys whose value differs, carrying the new value or undefined when removed |
| Storage.FixedKeysAreNotSiteKeys | entrypoints/popup/App.tsx:155-158 | neither "global-pets" nor the two setting keys starts with "pets-" |
| Text.NatToString | entrypoints/components/home.tsx:136 | the decimal text of a timestamp is non-empty, all digits, and denotes the timestamp |
| Home.StorageKey | entrypoints/components/home.tsx:34-42 | the key starts with "pets-" iff the mode is per-site; global mode uses "global-pets"; a per-site key gives back its origin |
| Home.KeyspacesDisjoint | entrypoints/components/home.tsx:34-42 | two controllers share a key iff they share the mode and, in per-site mode, the origin |
| Home.LoadStorageMode | entrypoints/components/home.tsx:45-54 | a missing or empty stored mode leaves the mode unchanged; a stored mode name is adopted |
| Home.LoadPets | entrypoints/components/home.tsx:57-69 | an absent key loads the empty list; a stored list loads as itself |
| Home.SavePets | entrypoints/components/home.tsx:72-79 | only the current key is written, it holds the list itself (an array even when empty), and loading it afterwards returns the saved list |
| Home.Mount | entrypoints/components/home.tsx:82-89 | without a stored mode the controller settles in global mode, a stored mode name is adopted, and it shows the pets of the mode it settles in |
| Home.ModeChangeReload | entrypoints/components/home.tsx:87-89 | an unchanged mode changes nothing; a changed mode reloads the pets from the new mode's key |
| Home.SpawnLeft | entrypoints/components/home.tsx:129-130 | the spawn offset lies in [0, maxLeft), and is 0 when the viewport is no wider than a pet |
| Home.PetId | entrypoints/components/home.tsx:136 | every created id starts with "pet-" |
| Home.NewPet | entrypoints/components/home.tsx:129-143 | the record takes name, image and type from the payload, stands on the floor inside the viewport, and faces left iff the random number is below 0.5 |
| Home.CreatePet | entrypoints/components/home.tsx:125-151 | a missing payload changes nothing; otherwise exactly one record is appended after the unchanged old ones, it is saved under the current key, and no other key changes |
| Home.CreatePetAsWritten | entrypoints/components/home.tsx:124-168 | the registered handler shows the same list as the corrected one but saves it under "global-pets" whatever the mode |
| Home.StaleCreateMissesSiteKey | entrypoints/components/home.tsx:145-150 | in per-site mode the handler as written leaves the site's key unchanged and overwrites the global list |
| Home.CreateAsWrittenAgreesInGlobalMode | entrypoints/components/home.tsx:124-168 | in global mode the registered create handler is the corrected one |
| Home.RemoveId | entrypoints/components/home.tsx:195 | the filter keeps exactly the records with a different id, never grows the list, and returns it unchanged when no record has the id |
| Home.RemoveIdConcat | entrypoints/components/home.tsx:195 | filtering distributes over concatenation, so the kept records keep their order |
| Home.RemoveIdIdempotent | entrypoints/components/home.tsx:195 | filtering twice by the same id is filtering once |
| Home.Delete | entrypoints/components/home.tsx:193-199 | exactly the records with other ids remain, in their order (the filter `RemoveId`, which distributes over concatenation), the list itself is written under the current key even when empty, no other key is added, and every other key keeps its value |
| Home.DeleteIdempotent | entrypoints/components/home.tsx:193-199 | deleting the same pet twice is deleting it once |
| Home.Notified | entrypoints/components/home.tsx:87-114 | a notification as the page lives it: the listener's mode, and, when the mode changed, the pets of the new mode's key; otherwise exactly the listener's result |
| Home.HandleAllChanges | entrypoints/components/home.tsx:93-114 | other storage areas are ignored; a storage-mode change sets the mode; a change of the key in force before the notification replaces the pets, with [] when the key was removed; other keys are ignored |
| Home.ReloadPets | entrypoints/components/home.tsx:153-157 | the reload re-reads the mode and shows the pets of that mode's key |
| Home.ReloadIdempotent | entrypoints/components/home.tsx:153-157 | reloading twice on an unchanged store gives the same state as once |
| Home.ReloadPetsAsWritten | entrypoints/components/home.tsx:153-168 | the registered handler ends in the re-read mode, but with an unchanged mode it shows the global list |
| Home.StaleReloadShowsGlobalPets | entrypoints/components/home.tsx:153-157 | a per-site page whose site and global lists differ shows the global list after the reload as written |
| Home.ReloadAsWrittenAgrees | entrypoints/components/home.tsx:153-168 | the registered reload handler gives the corrected result iff the re-read mode differs from the page's, or is global, or the global list equals the page's own |
| PetMotion.InitView | entrypoints/components/pet.tsx:19-46 | a pet starts walking, before its first frame, at its stored place and facing, drawn mirrored iff it faces left |
| PetMotion.Clock | entrypoints/components/pet.tsx:50-54 | the first frame measures no time, later frames measure a non-negative time, and the clock always moves to the frame's timestamp |
| PetMotion.WalkStep | entrypoints/components/pet.tsx:56-80 | moving right past the edge clamps and turns left (strict test); moving left to 0 or below sets 0 and turns right; other directions do not move; a turn happens only at an edge; the pet stays in bounds |
| PetMotion.Frame | entrypoints/components/pet.tsx:49-82 | a frame advances the clock, keeps the height and walking flag, leaves a paused pet in place, and walks a moving one by speed times elapsed time |
| PetMotion.FirstFrameDoesNotMove | entrypoints/components/pet.tsx:50-73 | the first frame does not move a pet; it turns it iff it walks left standing at 0 |
| PetMotion.Click | entrypoints/components/pet.tsx:115 | a click toggles walking and changes nothing else |
| PetMotion.ClickTwiceRestores | entrypoints/components/pet.tsx:115 | two clicks restore the state |
| PetMotion.SpriteOf | entrypoints/components/pet.tsx:119 | the walking sprite shows iff the pet is moving |
| PetMotion.React | entrypoints/components/pet.tsx:95-116 | a context-menu click leaves the pet and asks for deletion iff there is a delete callback; clicks and frames never ask |
| PetMotion.RunStaysInBounds | entrypoints/components/pet.tsx:48-91 | through any clicks and in-order frames, a pet inside a viewport at least a pet wide stays inside, keeps walking left or right, and keeps its height |
| PetMotion.RunDeleteRequests | entrypoints/components/pet.tsx:95-100 | a run asks for deletion iff a delete callback exists and some event is a context-menu click |
| Relay.Waits | entrypoints/background.ts:49-51 | the wait after failed attempt k is delay times (k + 1) |
| Relay.TotalWait | entrypoints/background.ts:44-51 | the waits after n failed attempts add up to delay times n(n+1)/2 |
| Relay.FirstDelivery | entrypoints/background.ts:44-47 | the earliest successful attempt below the budget, or none when all fail |
| Relay.Deliver | entrypoints/background.ts:38-62 | success iff some attempt within the budget is delivered; success stops at the first delivered attempt; failure uses the whole budget; waits come only between attempts |
| Relay.SendMessageWithRetry | entrypoints/background.ts:38-62 | the loop computes the reference run: its result, the number of attempts, and the waits in order |
| Relay.FirstDeliveryIsFirst | entrypoints/background.ts:44-47 | a delivered attempt that follows only failed ones is the first delivery |
| Relay.FailedRunWaits | entrypoints/background.ts:49-58 | a failed run with a budget of n attempts waits delay times n(n-1)/2 in all |
| Relay.EnsureContentScript | entrypoints/background.ts:13-35 | the probe succeeds iff the ping is delivered, the same as a one-attempt retrying send |
| Relay.HandleCreatePet | entrypoints/background.ts:71-119 | each failed precondition (query error, no tab, falsy id, browser page) gets its own failure and no delivery; otherwise the first tab receives the request and success reports the retrying send |
| Relay.Broadcast | entrypoints/background.ts:123-132 | the reload goes to exactly the tabs with a truthy id, and never to id 0; a single tab gets one message iff its id is truthy |
| Relay.BroadcastConcat | entrypoints/background.ts:125-131 | the broadcast over two runs of tabs is the first run's messages followed by the second's, so every tab with a truthy id gets exactly one message, in tab order |
| Relay.OnMessage | entrypoints/background.ts:65-137 | create-pet and reload-pets return true and are handled; every other action returns false and is ignored |
| Content.OnMessage | entrypoints/content.tsx:19-57 | ping answers ready; create-pet and reload-pets dispatch their event and answer success, or answer the raised error; other actions return false with no answer |
| Content.EveryMessageAnswered | entrypoints/content.tsx:26-48 | every message is answered; only create-pet and reload-pets dispatch an event, create-pet with exactly the sent payload |
| Popup.Flatten | entrypoints/popup/App.tsx:56 | a pet is in the flattened list iff some category lists it |
| Popup.FlattenConcat | entrypoints/popup/App.tsx:56 | flattening keeps the categories' order |
| Popup.AllPets | entrypoints/popup/App.tsx:52-59 | the tab list is an "all" tab followed by the unchanged categories; the "all" tab lists every category's pets in category order |
| Popup.ShownPets | entrypoints/popup/App.tsx:216-218 | the grid shows the pets of the first tab with the selected id, and nothing iff no tab has it |
| Popup.AllTabShowsEveryPet | entrypoints/popup/App.tsx:21-59 | the "all" tab shows all ten pets, the cats first |
| Popup.PetClickRequest | entrypoints/popup/App.tsx:111-117 | a pet card sends a create-pet message carrying its English name and image |
| Popup.ShouldAlert | entrypoints/popup/App.tsx:120-128 | the popup alerts iff there is a response and it does not report success |
| Popup.AlertReason | entrypoints/popup/App.tsx:123-127 | the alert shows the response's error when it is non-empty, and the fixed text "未知错误" otherwise |
| Popup.PetClickAlerts | entrypoints/popup/App.tsx:107-137 | a rejected send always alerts; a resolved send alerts iff its response does not report success |
| Popup.LoadModeSetting | entrypoints/popup/App.tsx:70-81 | a truthy stored mode is adopted as stored; otherwise the setting keeps its value |
| Popup.ClearMode | entrypoints/popup/App.tsx:147-148 | a missing or empty mode means global; a stored mode name is that mode |
| Popup.SettingAgreesWithClearMode | entrypoints/popup/App.tsx:63-81 | the loaded setting, starting from "global", reads "global" iff clear-all acts globally, and reads "global" when nothing is stored |
| Popup.ChangeStorageMode | entrypoints/popup/App.tsx:84-99 | only "storage-mode" is written, and it holds the chosen mode's name; clear-all reads it back as the chosen mode, and every tab with a truthy id is told to reload |
| Popup.SiteKeysOf | entrypoints/popup/App.tsx:155-158 | a key is selected iff it is listed and starts with "pets-" |
| Popup.SelectSiteKeys | entrypoints/popup/App.tsx:155-158 | the filtering loop selects exactly the listed keys that start with "pets-", in order |
| Popup.SelectedKeysAreSiteKeys | entrypoints/popup/App.tsx:155-158 | filtering any listing of the store's keys selects exactly the key set per-site clear-all removes |
| Popup.ClearAllPets | entrypoints/popup/App.tsx:140-179 | declining changes nothing; global mode removes exactly "global-pets"; per-site mode removes exactly the "pets-" keys; surviving keys keep their values; every tab is told to reload |
| Pipeline.EndToEndCreate | entrypoints/background.ts:109-111 | a pet click on a reachable tab, delivered first time, gets success with no alert; the registered handler appends one standing record of the clicked type and saves the list under "global-pets", which in global mode is the corrected behaviour and in per-site mode leaves the site's key unchanged |
| Pipeline.AlertIffNotDelivered | entrypoints/popup/App.tsx:120-128 | the popup alerts after a pet click iff the relay did not deliver the request |
| Pipeline.ClearAllReachesPage | entrypoints/popup/App.tsx:140-179 | clearing in a page's own mode: the notification empties the page whenever it comes last; the registered reload coming last empties a global page but shows a per-site page the "global-pets" list |
| Pipeline.GlobalClearSparesSitePage | entrypoints/popup/App.tsx:150-152 | a global clear's notification leaves a per-site page exactly as it was, whatever the stored mode |
| Pipeline.GlobalClearReloadEmptiesSitePage | entrypoints/components/home.tsx:153-157 | after a global clear, a per-site page with no stored mode reloads as written from the removed "global-pets" and shows no pets, though its own key is untouched and the corrected reload keeps them |
| Pipeline.ModeChangeReachesPages | entrypoints/popup/App.tsx:84-99 | after a mode change the registered reload, before or after the notification, puts the page in the new mode; a reload before the notification loads the new mode's pets; a notification of a real change switches the mode and loads the new mode's pets, but the registered reload after it shows the "global-pets" list |
| Pipeline.PetSession | entrypoints/components/home.tsx:183-200 | a pet's events keep the controller's mode and never add a record |
| Pipeline.WalkingNeverPersists | entrypoints/components/pet.tsx:95-100 | without a context-menu click the controller and the store are unchanged; with one, exactly the records with the pet's id are removed |

## Left out

- Home.LoadPets: a non-empty string stored under a pets key reads as the empty list. The source would put that string into its pet state.
- Home.HandleAllChanges: a non-empty string arriving as the new value of the current key reads as the empty list, for the same reason.
- Home.Mount: gives only the settled state after both mount-time reads complete in order. The first pet load starts before the mode is read, and its race with the second load is not modelled.
- The initial-position setting is left out. The popup reads and writes it, but no component uses it.
- The options page is left out.
- Storage read and write failures are left out. In the page controller the source only logs them.
- Popup.ClearAllPets: a failed storage read or removal is not modelled. In the source it is logged, and the reload broadcast is then skipped.
- Popup.ChangeStorageMode: a rejected write is not modelled. In the source it is not caught, and the reload broadcast is then skipped.
- Rejections of the reload broadcast's individual sends are left out; the source ignores them.
- Relay.Deliver: attempts beyond the supplied outcomes count as failed. The timers are recorded as a list of waits; time does not elapse.
- Relay.HandleCreatePet: the tab query's filter (the active tab of the current window) is not modelled. The query result is a parameter.
- Content.OnMessage: an exception thrown by `sendResponse` itself is not modelled. Only an exception from dispatching the page event is.
- Scheduling is left out: React state batching and effect ordering, `requestAnimationFrame` cancellation when the effect re-runs, and the moment a frame's direction change takes effect.
- Concurrency between tabs is left out, including last-write-wins overwrites of a shared key.
- Rendering is left out: layout, images, and the mirrored transform beyond the predicate `Mirrored`.
- The order in which a page receives a storage notification and a reload message is not fixed by the source. The end-to-end lemmas state the outcome for each order instead of choosing one.
- The sprite's width and speed come from an asset file that is not part of this model. They are parameters (`PetConfig`, `petWidth`).
- Home.NewPet: ids are not proved unique. Uniqueness depends on `Date.now()` and `Math.random()`, which are parameters.

## Findings

Both handlers below are registered once, on mount (an effect with no dependencies). They therefore call the first render's save and load functions, which resolve the storage key with the initial mode `"global"`. Both bugs stay latent while the popup's storage-mode setting is hidden, but any stored `"per-site"` value triggers them.

The corrected members carry the intended properties. The end-to-end lemmas in `Pipeline` compose the handlers as written, so they show what a page actually does, including the consequences of these bugs for clear-all and for a mode change.

| source | as written | input that shows it | evidently intended | confidence | as-written member | corrected member |
|---|---|---|---|---|---|---|
| entrypoints/components/home.tsx:124-168 | the create-pet handler saves the new list under "global-pets" whatever the current mode | stored mode "per-site"; create any pet; the site key is unchanged and "global-pets" now holds the site's list | save under the current mode's key, "pets-" + origin | not executed | Home.StaleCreateMissesSiteKey | Home.CreatePet |
| entrypoints/components/home.tsx:153-168 | the reload-pets handler re-reads the mode, then loads "global-pets"; only a changed mode triggers a second load from the right key | stored mode "per-site", controller already per-site, site and global lists differ; a reload shows the global list | load the pets of the re-read mode's key | not executed | Home.StaleReloadShowsGlobalPets | Home.ReloadPets |

=== FILE: background.dfy ===
/** The background relay (entrypoints/background.ts): it forwards a create-pet request from
    the popup to the active tab with a bounded, linearly backed-off retry, rejects tabs it
    cannot reach, and fans a reload-pets request out to every tab.

    The browser's answers are parameters: the result of the tab query, and for each
    delivery attempt whether `tabs.sendMessage` resolved (true) or threw (false). */
module Relay {
  import opened Wrappers
  import opened Types
  import opened Text

  /** A browser tab as the relay sees it. */
  datatype Tab = Tab(id: Option<int>, url: Option<string>)

  /** `if (tab.id)`: a missing id and the id 0 are both falsy. */
  predicate HasId(t: Tab) {
    t.id.Some? && t.id.value != 0
  }

  /** The URL schemes of browser-internal pages, into which no content script is injected. */
  const SpecialPrefixes: seq<string> := ["chrome://", "chrome-extension://", "edge://", "moz-extension://"]

  /** `url?.startsWith(...)` for one of the special prefixes; a tab without a URL is not special. */
  predicate IsSpecialPage(url: Option<string>) {
    url.Some? && exists i :: 0 <= i < |SpecialPrefixes| && HasPrefix(url.value, SpecialPrefixes[i])
  }

  /** The default arguments of the retrying send. */
  const DefaultMaxRetries: int := 3
  const DefaultDelay: int := 100

  /** Whether delivery attempt `i` succeeds; attempts beyond the supplied outcomes fail. */
  predicate Delivered(outcomes: seq<bool>, i: nat) {
    i < |outcomes| && outcomes[i]
  }

  /** The number of attempts `for (let i = 0; i < maxRetries; i++)` allows. */
  function Budget(maxRetries: int): nat {
    if maxRetries > 0 then maxRetries else 0
  }

  /** The waits `delay * (i + 1)` after the first `n` failed attempts, in order. */
  function Waits(delay: int, n: nat): (w: seq<int>)
    ensures |w| == n
    ensures forall k :: 0 <= k < n ==> w[k] == delay * (k + 1)
  {
    if n == 0 then [] else Waits(delay, n - 1) + [delay * n]
  }

  function Sum(s: seq<int>): int {
    if |s| == 0 then 0 else Sum(s[..|s| - 1]) + s[|s| - 1]
  }

  /** The waits after `n` failed attempts add up to `delay * n * (n + 1) / 2`. */
  lemma {:induction false} TotalWait(delay: int, n: nat)
    ensures 2 * Sum(Waits(delay, n)) == delay * (n * (n + 1))
  {
    if n > 0 {
      TotalWait(delay, n - 1);
      var w := Waits(delay, n);
      assert w[..|w| - 1] == Waits(delay, n - 1);
      assert w[n - 1] == delay * n;
      TriangleStep(delay, n, Sum(Waits(delay, n - 1)));
    }
  }

  /** One step of the triangular sum: adding `delay * n` to a sum of `n - 1` waits. */
  lemma TriangleStep(delay: int, n: int, s: int)
    requires 2 * s == delay * ((n - 1) * n)
    ensures 2 * (s + delay * n) == delay * (n * (n + 1))
  {
    assert n * (n + 1) == (n - 1) * n + 2 * n;
    assert delay * ((n - 1) * n + 2 * n) == delay * ((n - 1) * n) + delay * (2 * n);
  }

  /** The first attempt below `limit` that succeeds, if any. */
  function FirstDelivery(outcomes: seq<bool>, limit: nat): (r: Option<nat>)
    ensures r.Some? ==> r.value < limit && Delivered(outcomes, r.value)
    ensures r.Some? ==> forall j :: 0 <= j < r.value ==> !Delivered(outcomes, j)
    ensures r.None? ==> forall j :: 0 <= j < limit ==> !Delivered(outcomes, j)
  {
    if limit == 0 then None
    else
      match FirstDelivery(outcomes, limit - 1)
      case Some(j) => Some(j)
      case None => if Delivered(outcomes, limit - 1) then Some(limit - 1) else None
  }

  /** What a run of the retrying send does: its result, how many attempts it made, and
      the waits between them. */
  datatype Delivery = Delivery(ok: bool, attempts: nat, waits: seq<int>)

  /** The reference run: it stops at the first successful attempt within the budget, or
      after exhausting the budget, and waits only between attempts. */
  function Deliver(outcomes: seq<bool>, maxRetries: int, delay: int): (d: Delivery)
    ensures d.attempts <= Budget(maxRetries)
    ensures d.ok <==> exists j :: 0 <= j < Budget(maxRetries) && Delivered(outcomes, j)
    ensures !d.ok ==> d.attempts == Budget(maxRetries)
    ensures d.ok ==> d.attempts >= 1 && Delivered(outcomes, d.attempts - 1)
    ensures forall j :: 0 <= j < d.attempts - 1 ==> !Delivered(outcomes, j)
    ensures d.waits == Waits(delay, if d.attempts == 0 then 0 else d.attempts - 1)
  {
    match FirstDelivery(outcomes, Budget(maxRetries))
    case Some(j) => Delivery(true, j + 1, Waits(delay, j))
    case None =>
      var n := Budget(maxRetries);
      Delivery(false, n, Waits(delay, if n == 0 then 0 else n - 1))
  }

  /** `sendMessageWithRetry`: attempt `i` is made only after attempts `0..i-1` failed;
      the first success returns true at once; a failed attempt is followed by a wait of
      `delay * (i + 1)` only when another attempt remains; when every attempt fails, and
      when `maxRetries <= 0` allows none, the result is false. */
  method SendMessageWithRetry(outcomes: seq<bool>, maxRetries: int, delay: int)
    returns (ok: bool, attempts: nat, waits: seq<int>)
    ensures Delivery(ok, attempts, waits) == Deliver(outcomes, maxRetries, delay)
    ensures ok <==> exists j :: 0 <= j < Budget(maxRetries) && Delivered(outcomes, j)
    ensures !ok ==> attempts == Budget(maxRetries)
    ensures ok ==> attempts >= 1 && Delivered(outcomes, attempts - 1)
  {
    attempts := 0;
    waits := [];
    var i := 0;
    while i < maxRetries
      invariant 0 <= i <= Budget(maxRetries)
      invariant i == 0 || i < maxRetries
      invariant attempts == i
      invariant forall j :: 0 <= j < i ==> !Delivered(outcomes, j)
      invariant waits == Waits(delay, i)
      decreases maxRetries - i
    {
      attempts := attempts + 1;
      if Delivered(outcomes, i) {
        assert FirstDelivery(outcomes, Budget(maxRetries)) == Some(i) by {
          FirstDeliveryIsFirst(outcomes, Budget(maxRetries), i);
        }
        return true, attempts, waits;
      }
      if i < maxRetries - 1 {
        waits := waits + [delay * (i + 1)];
      } else {
        assert FirstDelivery(outcomes, Budget(maxRetries)).None?;
        return false, attempts, waits;
      }
      i := i + 1;
    }
    assert FirstDelivery(outcomes, Budget(maxRetries)).None?;
    return false, attempts, waits;
  }

  /** The first success below a limit is the success that no earlier attempt precedes. */
  lemma {:induction false} FirstDeliveryIsFirst(outcomes: seq<bool>, limit: nat, i: nat)
    requires i < limit && Delivered(outcomes, i)
    requires forall j :: 0 <= j < i ==> !Delivered(outcomes, j)
    ensures FirstDelivery(outcomes, limit) == Some(i)
  {
    if limit - 1 > i {
      FirstDeliveryIsFirst(outcomes, limit - 1, i);
    } else {
      assert FirstDelivery(outcomes, limit - 1).None?;
    }
  }

  /** A run that fails waits `delay * n * (n - 1) / 2` in all, for a budget of `n` attempts. */
  lemma FailedRunWaits(outcomes: seq<bool>, maxRetries: int, delay: int)
    requires !Deliver(outcomes, maxRetries, delay).ok
    ensures var n := Budget(maxRetries);
      2 * Sum(Deliver(outcomes, maxRetries, delay).waits) == delay * (n * (n - 1))
  {
    var n := Budget(maxRetries);
    var d := Deliver(outcomes, maxRetries, delay);
    if n > 0 {
      assert d.waits == Waits(delay, n - 1);
      TotalWait(delay, n - 1);
      assert (n - 1) * n == n * (n - 1);
    } else {
      assert d.waits == [];
    }
  }

  /** `ensureContentScript`: a single ping, answered iff the content script is listening.
      It is one attempt of the retrying send with a budget of one. */
  function EnsureContentScript(pingDelivered: bool): (ready: bool)
    ensures ready == Deliver([pingDelivered], 1, 0).ok
  {
    assert Delivered([pingDelivered], 0) == pingDelivered;
    pingDelivered
  }

  /** What the create-pet handler does: the response it sends back, the tab it delivered
      to (if it tried), and the delivery attempts it made. */
  datatype CreateReply = CreateReply(response: MessageResponse, target: Option<int>, attempts: nat)

  const NoActiveTab: string := "No active tab"
  const TabHasNoId: string := "Tab has no ID"
  const SpecialPageError: string := "Cannot inject into special pages"

  /** The create-pet handler. A failed tab query, an empty query, a first tab without a
      (truthy) id and a browser-internal page are each answered with a failure and no
      delivery attempt; otherwise the request goes to the first tab with the default retry
      policy and `success` reports whether it arrived. */
  function HandleCreatePet(query: Result<seq<Tab>>, outcomes: seq<bool>): (r: CreateReply)
    ensures query.Err? ==> r == CreateReply(FailureResponse(query.error), None, 0)
    ensures query == Ok([]) ==> r == CreateReply(FailureResponse(NoActiveTab), None, 0)
    ensures query.Ok? && |query.value| > 0 && !HasId(query.value[0]) ==>
      r == CreateReply(FailureResponse(TabHasNoId), None, 0)
    ensures query.Ok? && |query.value| > 0 && HasId(query.value[0]) && IsSpecialPage(query.value[0].url) ==>
      r == CreateReply(FailureResponse(SpecialPageError), None, 0)
    ensures r.target.Some? <==>
      query.Ok? && |query.value| > 0 && HasId(query.value[0]) && !IsSpecialPage(query.value[0].url)
    ensures r.target.Some? ==>
      && r.target == query.value[0].id
      && r.response == SuccessResponse(Deliver(outcomes, DefaultMaxRetries, DefaultDelay).ok)
      && r.attempts == Deliver(outcomes, DefaultMaxRetries, DefaultDelay).attempts
    ensures r.response.success.Some? && r.response.ready.None?
    ensures r.response.error.Some? ==> r.response.success == Some(false)
    ensures r.attempts <= DefaultMaxRetries
  {
    match query
    case Err(e) => CreateReply(FailureResponse(e), None, 0)
    case Ok(tabs) =>
      if |tabs| == 0 then CreateReply(FailureResponse(NoActiveTab), None, 0)
      else if !HasId(tabs[0]) then CreateReply(FailureResponse(TabHasNoId), None, 0)
      else if IsSpecialPage(tabs[0].url) then CreateReply(FailureResponse(SpecialPageError), None, 0)
      else
        var d := Deliver(outcomes, DefaultMaxRetries, DefaultDelay);
        CreateReply(SuccessResponse(d.ok), tabs[0].id, d.attempts)
  }

  /** The ids a reload-pets broadcast goes to: every tab with a (truthy) id, in tab order. */
  function Broadcast(tabs: seq<Tab>): (ids: seq<int>)
    ensures |ids| <= |tabs|
    ensures forall x :: x in ids <==> exists t :: t in tabs && HasId(t) && t.id.value == x
    ensures 0 !in ids
    ensures |tabs| == 1 && HasId(tabs[0]) ==> ids == [tabs[0].id.value]
    ensures |tabs| == 1 && !HasId(tabs[0]) ==> ids == []
  {
    if |tabs| == 0 then []
    else
      var rest := Broadcast(tabs[1..]);
      assert forall t :: t in tabs[1..] ==> t in tabs;
      if HasId(tabs[0]) then [tabs[0].id.value] + rest else rest
  }

  /** The broadcast over two runs of tabs is the broadcast over the first followed by the
      broadcast over the second; with the single-tab cases above, this fixes one message
      per tab with a truthy id, in tab order. */
  lemma {:induction false} BroadcastConcat(a: seq<Tab>, b: seq<Tab>)
    ensures Broadcast(a + b) == Broadcast(a) + Broadcast(b)
  {
    if |a| == 0 {
      assert a + b == b;
    } else {
      assert (a + b)[1..] == a[1..] + b;
      BroadcastConcat(a[1..], b);
    }
  }

  /** What the background listener does with a message. */
  datatype RelayAction =
    | RelayCreate(reply: CreateReply)
    | RelayReload(targets: seq<int>)
    | Ignore

  /** The listener's decision: create-pet is handled asynchronously and keeps the response
      channel open; reload-pets is broadcast to all tabs and also returns true; any other
      action, ping included, returns false and is left alone. */
  function OnMessage(req: Request, query: Result<seq<Tab>>, allTabs: seq<Tab>, outcomes: seq<bool>)
    : (r: (bool, RelayAction))
    ensures r.0 <==> req.action == CreatePetAction || req.action == ReloadPetsAction
    ensures req.action == CreatePetAction ==> r.1 == RelayCreate(HandleCreatePet(query, outcomes))
    ensures req.action == ReloadPetsAction ==> r.1 == RelayReload(Broadcast(allTabs))
    ensures !r.0 ==> r.1 == Ignore
  {
    if req.action == CreatePetAction then (true, RelayCreate(HandleCreatePet(query, outcomes)))
    else if req.action == ReloadPetsAction then (true, RelayReload(Broadcast(allTabs)))
    else (false, Ignore)
  }
}

=== FILE: content.dfy ===
/** The content script's message listener (entrypoints/content.tsx): it answers pings and
    turns create-pet and reload-pets messages into events on the page's document, where the
    pet controller listens for them. */
module Content {
  import opened Wrappers
  import opened Types

  /** The custom events dispatched on the document. A create event carries the message's
      payload as its detail, which is missing when the message had none. */
  datatype PageEvent = CreateEvent(detail: Option<PetPayload>) | ReloadEvent

  /** What the listener does: its return value (true keeps the response channel open), the
      response it sends, and the event it dispatches. */
  datatype Handled = Handled(keepChannel: bool, response: Option<MessageResponse>, event: Option<PageEvent>)

  /** The listener. `raised` is the error, if any, that dispatching the page event throws;
      it is then caught and answered with `{success: false, error}`. Dispatching reports a
      listener's exception rather than rethrowing it, so the page controller's own errors
      (a create event without a payload, say) never take this path: it over-approximates
      what `dispatchEvent` can throw. */
  function OnMessage(req: Request, raised: Option<string>): (h: Handled)
    ensures req.action == PingAction ==> h == Handled(true, Some(ReadyResponse), None)
    ensures req.action == CreatePetAction && raised.None? ==>
      h == Handled(true, Some(SuccessResponse(true)), Some(CreateEvent(req.pet)))
    ensures req.action == ReloadPetsAction && raised.None? ==>
      h == Handled(true, Some(SuccessResponse(true)), Some(ReloadEvent))
    ensures req.action in {CreatePetAction, ReloadPetsAction} && raised.Some? ==>
      h == Handled(true, Some(FailureResponse(raised.value)), None)
    ensures req.action !in {PingAction, CreatePetAction, ReloadPetsAction} ==> h == Handled(false, None, None)
    ensures h.keepChannel <==> h.response.Some?
  {
    if req.action == PingAction then
      Handled(true, Some(ReadyResponse), None)
    else if req.action == CreatePetAction || req.action == ReloadPetsAction then
      match raised
      case Some(e) => Handled(true, Some(FailureResponse(e)), None)
      case None =>
        var ev := if req.action == CreatePetAction then CreateEvent(req.pet) else ReloadEvent;
        Handled(true, Some(SuccessResponse(true)), Some(ev))
    else
      Handled(false, None, None)
  }

  /** Every member of the message union is answered; a ping only with `{ready: true}`,
      and each of the other two with exactly its own event, a create-pet event carrying
      exactly the sent payload. */
  lemma EveryMessageAnswered(m: ExtensionMessage)
    ensures var h := OnMessage(ToRequest(m), None);
      && h.keepChannel
      && (m.Ping? <==> h.event.None?)
      && (m.CreatePet? ==> h.event == Some(CreateEvent(Some(m.pet))))
      && (m.ReloadPets? ==> h.event == Some(ReloadEvent))
  {
  }
}

=== FILE: home.dfy ===
/** The page-side pet collection controller (entrypoints/components/home.tsx): it resolves
    the storage key for the current mode and origin, loads and saves the pet list, creates
    and deletes pets, and follows storage change notifications.

    Every operation is a pure function of the controller's state and the store; the page's
    origin, the viewport width, `Date.now()` and `Math.random()` are parameters. */
module Home {
  import opened Wrappers
  import opened Types
  import opened Text
  import opened Storage

  /** The controller's state: the mode it resolves keys with and the pets it shows. */
  datatype HomeState = HomeState(mode: StorageMode, pets: seq<PetData>)

  /** The state on mount, before any storage read has completed. */
  const InitialState: HomeState := HomeState(Global, [])

  /** A state together with the store after an operation's write. */
  datatype Effect = Effect(state: HomeState, store: Store)

  /** The key holding the pets of a mode and origin: one fixed key in global mode, one
      key per origin in per-site mode. The per-site keys share the prefix `"pets-"` and
      give back their origin; the global key lies outside that keyspace. */
  function StorageKey(mode: StorageMode, origin: string): (k: string)
    ensures HasPrefix(k, SitePetsPrefix) <==> mode == PerSite
    ensures mode == Global ==> k == GlobalPetsKey
    ensures mode == PerSite ==> k[|SitePetsPrefix|..] == origin
  {
    match mode
    case Global =>
      FixedKeysAreNotSiteKeys();
      GlobalPetsKey
    case PerSite =>
      var k := SitePetsPrefix + origin;
      PrefixOfConcat(SitePetsPrefix, origin);
      assert HasPrefix(k, SitePetsPrefix);
      k
  }

  /** Two controllers read and write the same key exactly when they are in the same mode
      and, in per-site mode, on the same origin. */
  lemma KeyspacesDisjoint(m1: StorageMode, o1: string, m2: StorageMode, o2: string)
    ensures StorageKey(m1, o1) == StorageKey(m2, o2) <==> m1 == m2 && (m1 == PerSite ==> o1 == o2)
  {
    if StorageKey(m1, o1) == StorageKey(m2, o2) && m1 == PerSite {
      assert m2 == PerSite;
      assert o1 == StorageKey(m1, o1)[|SitePetsPrefix|..] == o2;
    }
  }

  /** The mode a stored `"storage-mode"` value selects: keys are resolved as global only
      for the exact string `"global"`, and as per-site for anything else. */
  function ModeFromValue(v: Option<Value>): StorageMode {
    if v == Some(Str(ModeName(Global))) then Global else PerSite
  }

  /** Reading the storage mode: a present (truthy) value is adopted, otherwise the mode
      stays as it was. */
  function LoadStorageMode(mode: StorageMode, st: Store): (m: StorageMode)
    ensures !Truthy(Get(st, StorageModeKey)) ==> m == mode
    ensures forall n :: Get(st, StorageModeKey) == Some(Str(ModeName(n))) ==> m == n
  {
    var v := Get(st, StorageModeKey);
    if Truthy(v) then ModeFromValue(v) else mode
  }

  /** The pets a read value denotes: the stored list, and the empty list for `undefined`. */
  function PetsOf(v: Option<Value>): seq<PetData> {
    match v
    case Some(PetList(ps)) => ps
    case _ => []
  }

  /** Loading the pets of the current key: the stored list when present, the empty list
      when the key is absent. Loading only reads the store. */
  function LoadPets(mode: StorageMode, origin: string, st: Store): (ps: seq<PetData>)
    ensures StorageKey(mode, origin) !in st ==> ps == []
    ensures forall l :: Get(st, StorageKey(mode, origin)) == Some(PetList(l)) ==> ps == l
  {
    PetsOf(Get(st, StorageKey(mode, origin)))
  }

  /** Saving the pets under the current key. Only that key is written, and loading it
      afterwards gives back exactly the saved list. */
  function SavePets(mode: StorageMode, origin: string, st: Store, pets: seq<PetData>): (st': Store)
    ensures st'.Keys == st.Keys + {StorageKey(mode, origin)}
    ensures Get(st', StorageKey(mode, origin)) == Some(PetList(pets))
    ensures forall k :: k in st && k != StorageKey(mode, origin) ==> st'[k] == st[k]
    ensures LoadPets(mode, origin, st') == pets
  {
    st[StorageKey(mode, origin) := PetList(pets)]
  }

  /** The settled state after mounting: the stored mode is adopted when present, and the
      pets are those of that mode's key. */
  function Mount(st: Store, origin: string): (s: HomeState)
    ensures !Truthy(Get(st, StorageModeKey)) ==> s.mode == Global
    ensures forall n :: Get(st, StorageModeKey) == Some(Str(ModeName(n))) ==> s.mode == n
    ensures s.pets == LoadPets(s.mode, origin, st)
  {
    var m := LoadStorageMode(InitialState.mode, st);
    HomeState(m, LoadPets(m, origin, st))
  }

  /** When a render changes the mode, the pets are reloaded from the new mode's key;
      otherwise nothing happens. */
  function ModeChangeReload(before: StorageMode, s: HomeState, st: Store, origin: string): (r: HomeState)
    ensures r.mode == s.mode
    ensures s.mode == before ==> r == s
    ensures s.mode != before ==> r.pets == LoadPets(s.mode, origin, st)
  {
    if s.mode != before then HomeState(s.mode, LoadPets(s.mode, origin, st)) else s
  }

  /** The values `Math.random()` (three calls), `Date.now()` and `window.innerWidth`
      return while a pet is created. `idText` is the decimal text of the third random number. */
  datatype Spawn = Spawn(
    now: nat,
    leftRandom: real,
    directionRandom: real,
    idText: string,
    innerWidth: real)

  /** `Math.random()` returns a number in `[0, 1)`. */
  predicate ValidSpawn(sp: Spawn) {
    0.0 <= sp.leftRandom < 1.0 && 0.0 <= sp.directionRandom < 1.0
  }

  /** `Math.max(0, innerWidth - petWidth)`, the widest spawn offset. */
  function MaxLeft(innerWidth: real, petWidth: real): real {
    if innerWidth - petWidth > 0.0 then innerWidth - petWidth else 0.0
  }

  /** `Math.random() * maxLeft`: a spawn offset in `[0, maxLeft)`, or 0 when the viewport
      is no wider than a pet (the product is then 0 whatever the random number). */
  function SpawnLeft(r: real, maxLeft: real): (left: real)
    requires 0.0 <= r < 1.0 && 0.0 <= maxLeft
    ensures 0.0 <= left <= maxLeft
    ensures maxLeft > 0.0 ==> left < maxLeft
    ensures maxLeft == 0.0 ==> left == 0.0
  {
    if maxLeft == 0.0 then 0.0
    else
      var left := r * maxLeft;
      FractionBounds(r, maxLeft, left);
      left
  }

  /** A fraction `x` in `[0, 1)` of a positive width is non-negative and below that width. */
  lemma FractionBounds(r: real, w: real, x: real)
    requires 0.0 <= r < 1.0 && 0.0 < w && x == r * w
    ensures 0.0 <= x < w
  {
    var gap := (1.0 - r) * w;
    assert gap > 0.0;
    assert w - x == gap;
  }

  const PetIdPrefix: string := "pet-"

  /** The id `pet-${Date.now()}-${Math.random()}`. */
  function PetId(now: nat, idText: string): (id: string)
    ensures HasPrefix(id, PetIdPrefix)
  {
    var suffix := NatToString(now) + "-" + idText;
    PrefixOfConcat(PetIdPrefix, suffix);
    PetIdPrefix + suffix
  }

  /** The record created for a requested pet: its type is its name, it stands on the floor
      at a random offset within the viewport, and it faces a random way. */
  function NewPet(detail: PetPayload, sp: Spawn, petWidth: real): (p: PetData)
    requires ValidSpawn(sp)
    ensures p.name == detail.name && p.img == detail.img && p.petType == detail.name
    ensures p.bottom == 0.0
    ensures 0.0 <= p.left <= MaxLeft(sp.innerWidth, petWidth)
    ensures MaxLeft(sp.innerWidth, petWidth) > 0.0 ==> p.left < MaxLeft(sp.innerWidth, petWidth)
    ensures MaxLeft(sp.innerWidth, petWidth) == 0.0 ==> p.left == 0.0
    ensures p.direction == Left <==> sp.directionRandom < 0.5
    ensures HasPrefix(p.id, PetIdPrefix)
  {
    PetData(
      PetId(sp.now, sp.idText),
      detail.name,
      detail.img,
      detail.name,
      SpawnLeft(sp.leftRandom, MaxLeft(sp.innerWidth, petWidth)),
      0.0,
      if sp.directionRandom < 0.5 then Left else Right)
  }

  /** Appending a created pet and saving the list under `key`. A missing payload makes the
      event handler throw before it changes anything. */
  function AppendAndSave(state: HomeState, st: Store, origin: string, saveMode: StorageMode,
                         detail: Option<PetPayload>, sp: Spawn, petWidth: real): Effect
    requires ValidSpawn(sp)
  {
    match detail
    case None => Effect(state, st)
    case Some(d) =>
      var pets := state.pets + [NewPet(d, sp, petWidth)];
      Effect(HomeState(state.mode, pets), SavePets(saveMode, origin, st, pets))
  }

  /** Handling a create-pet page event: exactly one record is appended after the unchanged
      previous ones, the mode is kept, and the new list is what the current key now loads;
      no other key changes. A missing payload changes nothing. */
  function CreatePet(state: HomeState, st: Store, origin: string, detail: Option<PetPayload>,
                     sp: Spawn, petWidth: real): (e: Effect)
    requires ValidSpawn(sp)
    ensures detail.None? ==> e == Effect(state, st)
    ensures detail.Some? ==>
      && e.state.mode == state.mode
      && |e.state.pets| == |state.pets| + 1
      && e.state.pets[..|state.pets|] == state.pets
      && e.state.pets[|state.pets|] == NewPet(detail.value, sp, petWidth)
      && LoadPets(state.mode, origin, e.store) == e.state.pets
      && e.store.Keys == st.Keys + {StorageKey(state.mode, origin)}
      && forall k :: k in st && k != StorageKey(state.mode, origin) ==> e.store[k] == st[k]
  {
    AppendAndSave(state, st, origin, state.mode, detail, sp, petWidth)
  }

  /** The create-pet handler as written: it is registered once on mount, so the save it
      calls resolves the key with the mode the controller started in, which is global. */
  function CreatePetAsWritten(state: HomeState, st: Store, origin: string, detail: Option<PetPayload>,
                              sp: Spawn, petWidth: real): (e: Effect)
    requires ValidSpawn(sp)
    ensures e.state == CreatePet(state, st, origin, detail, sp, petWidth).state
    ensures detail.None? ==> e.store == st
    ensures detail.Some? ==> e.store == SavePets(Global, origin, st, e.state.pets)
  {
    AppendAndSave(state, st, origin, InitialState.mode, detail, sp, petWidth)
  }

  /** In per-site mode the handler as written leaves the site's key untouched, so a reload
      of the site loses the new pet, and it overwrites the global bag with the site's list. */
  lemma StaleCreateMissesSiteKey(state: HomeState, st: Store, origin: string, d: PetPayload,
                                 sp: Spawn, petWidth: real)
    requires ValidSpawn(sp) && state.mode == PerSite
    ensures var e := CreatePetAsWritten(state, st, origin, Some(d), sp, petWidth);
      && LoadPets(PerSite, origin, e.store) == LoadPets(PerSite, origin, st)
      && |e.state.pets| == |state.pets| + 1
      && LoadPets(Global, origin, e.store) == e.state.pets
  {
    var e := CreatePetAsWritten(state, st, origin, Some(d), sp, petWidth);
    var siteKey := StorageKey(PerSite, origin);
    KeyspacesDisjoint(PerSite, origin, Global, origin);
    assert Get(e.store, siteKey) == Get(st, siteKey);
  }

  /** In global mode, the mode every controller starts in, the handler as written is the
      corrected one. */
  lemma CreateAsWrittenAgreesInGlobalMode(state: HomeState, st: Store, origin: string,
                                          detail: Option<PetPayload>, sp: Spawn, petWidth: real)
    requires ValidSpawn(sp) && state.mode == Global
    ensures CreatePetAsWritten(state, st, origin, detail, sp, petWidth)
            == CreatePet(state, st, origin, detail, sp, petWidth)
  {
  }

  /** `pets.filter(p => p.id !== id)` */
  function RemoveId(pets: seq<PetData>, id: string): (r: seq<PetData>)
    ensures |r| <= |pets|
    ensures forall p :: p in r ==> p in pets && p.id != id
    ensures forall p :: p in pets && p.id != id ==> p in r
    ensures (forall p :: p in pets ==> p.id != id) ==> r == pets
  {
    if |pets| == 0 then []
    else if pets[0].id != id then [pets[0]] + RemoveId(pets[1..], id)
    else RemoveId(pets[1..], id)
  }

  /** Filtering distributes over concatenation, so the kept records stay in their order. */
  lemma {:induction false} RemoveIdConcat(a: seq<PetData>, b: seq<PetData>, id: string)
    ensures RemoveId(a + b, id) == RemoveId(a, id) + RemoveId(b, id)
  {
    if |a| == 0 {
      assert a + b == b;
    } else {
      assert (a + b)[1..] == a[1..] + b;
      RemoveIdConcat(a[1..], b, id);
    }
  }

  /** Deleting twice is deleting once. */
  lemma {:induction false} RemoveIdIdempotent(pets: seq<PetData>, id: string)
    ensures RemoveId(RemoveId(pets, id), id) == RemoveId(pets, id)
  {
    if |pets| > 0 {
      RemoveIdIdempotent(pets[1..], id);
      if pets[0].id != id {
        assert ([pets[0]] + RemoveId(pets[1..], id))[1..] == RemoveId(pets[1..], id);
      }
    }
  }

  /** A pet's context-menu delete: every record with that id goes, the others stay in their
      order, and the result is saved under the current key. Deleting twice is deleting once. */
  function Delete(state: HomeState, st: Store, origin: string, id: string): (e: Effect)
    ensures e.state.mode == state.mode
    ensures forall p :: p in e.state.pets <==> p in state.pets && p.id != id
    ensures e.state.pets == RemoveId(state.pets, id)
    ensures LoadPets(state.mode, origin, e.store) == e.state.pets
    ensures Get(e.store, StorageKey(state.mode, origin)) == Some(PetList(e.state.pets))
    ensures e.store.Keys == st.Keys + {StorageKey(state.mode, origin)}
    ensures forall k :: k in st && k != StorageKey(state.mode, origin) ==> k in e.store && e.store[k] == st[k]
  {
    var pets := RemoveId(state.pets, id);
    Effect(HomeState(state.mode, pets), SavePets(state.mode, origin, st, pets))
  }

  const LocalArea: string := "local"

  /** The storage change listener. Changes outside the `"local"` area are ignored. A
      change of `"storage-mode"` sets the mode; a change of the key of the mode in force
      before this notification replaces the pets with the new list, or with the empty list
      when the key was removed; changes of any other key are ignored. */
  function HandleAllChanges(state: HomeState, changes: Changes, area: string, origin: string): (r: HomeState)
    ensures area != LocalArea ==> r == state
    ensures StorageModeKey !in changes ==> r.mode == state.mode
    ensures area == LocalArea && StorageModeKey in changes ==>
      r.mode == ModeFromValue(changes[StorageModeKey].newValue)
    ensures StorageKey(state.mode, origin) !in changes ==> r.pets == state.pets
    ensures (area == LocalArea && StorageKey(state.mode, origin) in changes
             && changes[StorageKey(state.mode, origin)].newValue.None?) ==> r.pets == []
    ensures forall l :: (area == LocalArea && StorageKey(state.mode, origin) in changes
                         && changes[StorageKey(state.mode, origin)].newValue == Some(PetList(l))) ==> r.pets == l
  {
    if area != LocalArea then state
    else
      var mode := if StorageModeKey in changes then ModeFromValue(changes[StorageModeKey].newValue)
                  else state.mode;
      var key := StorageKey(state.mode, origin);
      var pets := if key in changes then PetsOf(changes[key].newValue) else state.pets;
      HomeState(mode, pets)
  }

  /** A storage notification as the page lives through it: the listener runs, and when it
      changed the mode the mode-change effect then reloads the pets from the new mode's key
      in the store `st'` the notification reports. */
  function Notified(state: HomeState, changes: Changes, area: string, origin: string, st': Store): (r: HomeState)
    ensures r.mode == HandleAllChanges(state, changes, area, origin).mode
    ensures r.mode != state.mode ==> r.pets == LoadPets(r.mode, origin, st')
    ensures r.mode == state.mode ==> r == HandleAllChanges(state, changes, area, origin)
    ensures area != LocalArea ==> r == state
  {
    ModeChangeReload(state.mode, HandleAllChanges(state, changes, area, origin), st', origin)
  }

  /** Deleting the same pet twice is deleting it once. */
  lemma DeleteIdempotent(state: HomeState, st: Store, origin: string, id: string)
    ensures var e := Delete(state, st, origin, id); Delete(e.state, e.store, origin, id) == e
  {
    RemoveIdIdempotent(state.pets, id);
  }

  /** Handling a reload-pets page event: the stored mode is re-read and the pets are those
      of that mode's key. */
  function ReloadPets(state: HomeState, st: Store, origin: string): (r: HomeState)
    ensures r.mode == LoadStorageMode(state.mode, st)
    ensures r.pets == LoadPets(r.mode, origin, st)
  {
    var m := LoadStorageMode(state.mode, st);
    HomeState(m, LoadPets(m, origin, st))
  }

  /** Reloading twice with no change in between gives the same state as reloading once. */
  lemma ReloadIdempotent(state: HomeState, st: Store, origin: string)
    ensures var r := ReloadPets(state, st, origin); ReloadPets(r, st, origin) == r
  {
  }

  /** The reload handler as written: it is registered once on mount, so its own load reads
      the global key. When the mode read back differs, the mode-change reload then runs
      and its later result wins; when it is the same, the global pets are shown. */
  function ReloadPetsAsWritten(state: HomeState, st: Store, origin: string): (r: HomeState)
    ensures r.mode == ReloadPets(state, st, origin).mode
    ensures r.mode == state.mode ==> r.pets == LoadPets(Global, origin, st)
  {
    var m := LoadStorageMode(state.mode, st);
    ModeChangeReload(state.mode, HomeState(m, LoadPets(InitialState.mode, origin, st)), st, origin)
  }

  /** A per-site page whose stored mode is unchanged shows the global bag after a reload
      as written, not its own site's pets. */
  lemma StaleReloadShowsGlobalPets(st: Store, origin: string, pets: seq<PetData>)
    requires Get(st, StorageModeKey) == Some(Str(ModeName(PerSite)))
    requires LoadPets(PerSite, origin, st) != LoadPets(Global, origin, st)
    ensures ReloadPetsAsWritten(HomeState(PerSite, pets), st, origin).pets == LoadPets(Global, origin, st)
    ensures ReloadPetsAsWritten(HomeState(PerSite, pets), st, origin).pets
      != ReloadPets(HomeState(PerSite, pets), st, origin).pets
  {
  }

  /** The reload handler as written gives the corrected result exactly when the re-read mode
      differs from the controller's, or it is global, or the global list is the one the
      controller's key holds anyway. */
  lemma ReloadAsWrittenAgrees(state: HomeState, st: Store, origin: string)
    ensures ReloadPetsAsWritten(state, st, origin) == ReloadPets(state, st, origin)
      <==> (|| LoadStorageMode(state.mode, st) != state.mode
            || state.mode == Global
            || LoadPets(Global, origin, st) == LoadPets(state.mode, origin, st))
  {
  }
}

=== FILE: pet.dfy ===
/** One pet on the page (entrypoints/components/pet.tsx): a walk that advances once per
    animation frame, a click that pauses and resumes it, and a context menu that asks the
    controller to delete the pet.

    A frame is a pure step on the component's state; the frame timestamp and
    `window.innerWidth` are parameters of the frame event, and the sprite's width and speed
    are parameters of the model. */
module PetMotion {
  import opened Types

  /** The sprite's fixed attributes: its width in pixels and its walking speed in pixels
      per millisecond. */
  datatype PetConfig = PetConfig(petWidth: real, speed: real)

  /** The component's state. `direction` is a string: the component accepts any, and only
      `"left"` and `"right"` walk. `lastTime` is the previous frame's timestamp, with 0
      standing for "no frame yet" (the component tests it for truthiness, and `null` and
      `0` are both falsy). */
  datatype PetView = PetView(
    left: real,
    bottom: real,
    direction: string,
    isMoving: bool,
    lastTime: real)

  const LeftName: string := DirectionName(Left)
  const RightName: string := DirectionName(Right)

  /** A direction the walk acts on. */
  predicate Walks(direction: string) {
    direction == LeftName || direction == RightName
  }

  /** A left offset that keeps the whole sprite inside a viewport of width `innerWidth`. */
  predicate InBounds(left: real, innerWidth: real, petWidth: real) {
    0.0 <= left <= innerWidth - petWidth
  }

  /** The state a stored record is rendered with: at its stored place and facing, walking,
      before its first frame. */
  function InitView(p: PetData): (v: PetView)
    ensures v.isMoving && v.lastTime == 0.0 && Walks(v.direction)
    ensures v.left == p.left && v.bottom == p.bottom
    ensures v.direction == LeftName <==> p.direction == Left
    ensures Mirrored(v) <==> p.direction == Left
  {
    PetView(p.left, p.bottom, DirectionName(p.direction), true, 0.0)
  }

  /** The frame clock: the time since the previous frame, and the timestamp to remember. */
  datatype Tick = Tick(delta: real, lastTime: real)

  /** The first frame (no previous timestamp) measures no time; every later frame
      measures the time since the previous one. */
  function Clock(lastTime: real, timestamp: real): (t: Tick)
    ensures t.lastTime == timestamp
    ensures lastTime == 0.0 ==> t.delta == 0.0
    ensures lastTime <= timestamp ==> t.delta >= 0.0
  {
    var last := if lastTime == 0.0 then timestamp else lastTime;
    Tick(timestamp - last, timestamp)
  }

  /** Where a walk leaves the pet. */
  datatype Walk = Walk(left: real, direction: string)

  /** One frame of walking `distance` pixels. Moving right, a sprite that would cross the
      right edge stops against it and turns left; moving left, an offset at or below 0
      becomes 0 and the pet turns right. Any other direction does not move. Within a
      viewport at least a pet wide, a walk that starts inside stays inside. */
  function WalkStep(left: real, direction: string, distance: real, innerWidth: real, petWidth: real): (w: Walk)
    ensures !Walks(direction) ==> w == Walk(left, direction)
    ensures direction == RightName ==>
      if left + distance + petWidth > innerWidth then w == Walk(innerWidth - petWidth, LeftName)
      else w == Walk(left + distance, RightName)
    ensures direction == LeftName ==>
      if left - distance <= 0.0 then w == Walk(0.0, RightName)
      else w == Walk(left - distance, LeftName)
    ensures Walks(direction) ==> Walks(w.direction)
    ensures w.direction != direction ==> w.left == 0.0 || w.left == innerWidth - petWidth
    ensures innerWidth >= petWidth && distance >= 0.0 && InBounds(left, innerWidth, petWidth) ==>
      InBounds(w.left, innerWidth, petWidth)
  {
    if direction == RightName then
      var l := left + distance;
      if l + petWidth > innerWidth then Walk(innerWidth - petWidth, LeftName) else Walk(l, RightName)
    else if direction == LeftName then
      var l := left - distance;
      if l <= 0.0 then Walk(0.0, RightName) else Walk(l, LeftName)
    else
      Walk(left, direction)
  }

  /** `speed * deltaTime` for non-negative factors is non-negative. */
  lemma DistanceNonNegative(speed: real, delta: real)
    requires 0.0 <= speed && 0.0 <= delta
    ensures 0.0 <= speed * delta
  {
  }

  /** One animation frame at `timestamp` with viewport width `innerWidth`. The clock always
      advances; a paused pet stays where it is; a walking pet walks `speed * deltaTime`.
      The height above the floor never changes. */
  function Frame(v: PetView, timestamp: real, innerWidth: real, cfg: PetConfig): (r: PetView)
    ensures r.lastTime == timestamp
    ensures r.bottom == v.bottom && r.isMoving == v.isMoving
    ensures !v.isMoving ==> r.left == v.left && r.direction == v.direction
    ensures !Walks(v.direction) ==> r.left == v.left && r.direction == v.direction
    ensures v.isMoving ==>
              Walk(r.left, r.direction)
              == WalkStep(v.left, v.direction, cfg.speed * Clock(v.lastTime, timestamp).delta, innerWidth, cfg.petWidth)
  {
    var tick := Clock(v.lastTime, timestamp);
    if v.isMoving then
      var w := WalkStep(v.left, v.direction, cfg.speed * tick.delta, innerWidth, cfg.petWidth);
      PetView(w.left, v.bottom, w.direction, v.isMoving, tick.lastTime)
    else
      v.(lastTime := tick.lastTime)
  }

  /** The first frame measures no time, so a pet inside the viewport does not move; it only
      turns, and only when it stands at the left edge facing left (that edge test is `<= 0`
      while the right edge test is strict). */
  lemma FirstFrameDoesNotMove(v: PetView, timestamp: real, innerWidth: real, cfg: PetConfig)
    requires v.lastTime == 0.0 && InBounds(v.left, innerWidth, cfg.petWidth)
    ensures Frame(v, timestamp, innerWidth, cfg).left == v.left
    ensures Frame(v, timestamp, innerWidth, cfg).direction != v.direction
      <==> v.isMoving && v.direction == LeftName && v.left == 0.0
  {
    assert Clock(v.lastTime, timestamp).delta == 0.0;
    assert cfg.speed * 0.0 == 0.0;
  }

  /** A click toggles walking; the sprite follows. */
  function Click(v: PetView): (r: PetView)
    ensures r.isMoving != v.isMoving
    ensures r.left == v.left && r.bottom == v.bottom && r.direction == v.direction && r.lastTime == v.lastTime
  {
    v.(isMoving := !v.isMoving)
  }

  /** Two clicks restore the state. */
  lemma ClickTwiceRestores(v: PetView)
    ensures Click(Click(v)) == v
  {
  }

  /** The image shown: the walking animation while moving, the standing one otherwise. */
  datatype Sprite = WalkSprite | StandSprite

  function SpriteOf(v: PetView): (s: Sprite)
    ensures s == WalkSprite <==> v.isMoving
  {
    if v.isMoving then WalkSprite else StandSprite
  }

  /** The sprite is drawn mirrored exactly when the pet faces left. */
  function Mirrored(v: PetView): bool {
    v.direction == LeftName
  }

  /** What can happen to a pet: an animation frame, a click, a context-menu click. */
  datatype PetEvent = FrameAt(timestamp: real, innerWidth: real) | Tap | ContextMenu

  /** The new state, and whether the controller was asked to delete the pet. */
  datatype Reaction = Reaction(view: PetView, deleteRequested: bool)

  /** One event. The context menu changes nothing here and asks for deletion exactly when
      the controller supplied a delete callback. */
  function React(v: PetView, e: PetEvent, cfg: PetConfig, hasOnDelete: bool): (r: Reaction)
    ensures r.deleteRequested <==> e.ContextMenu? && hasOnDelete
    ensures e.ContextMenu? ==> r.view == v
    ensures e.Tap? ==> r.view == Click(v)
    ensures e.FrameAt? ==> r.view == Frame(v, e.timestamp, e.innerWidth, cfg)
  {
    match e
    case FrameAt(t, w) => Reaction(Frame(v, t, w, cfg), false)
    case Tap => Reaction(Click(v), false)
    case ContextMenu => Reaction(v, hasOnDelete)
  }

  /** A sequence of events; the result records whether any of them asked for deletion. */
  function Run(v: PetView, events: seq<PetEvent>, cfg: PetConfig, hasOnDelete: bool): Reaction
    decreases |events|
  {
    if |events| == 0 then Reaction(v, false)
    else
      var r := React(v, events[0], cfg, hasOnDelete);
      var rest := Run(r.view, events[1..], cfg, hasOnDelete);
      Reaction(rest.view, r.deleteRequested || rest.deleteRequested)
  }

  /** Frames as the browser delivers them: timestamps never go back and start no earlier
      than the remembered one, and every frame sees the same viewport width. */
  predicate SteadyFrames(lastTime: real, innerWidth: real, events: seq<PetEvent>)
    decreases |events|
  {
    if |events| == 0 then true
    else match events[0]
      case FrameAt(t, w) => lastTime <= t && w == innerWidth && SteadyFrames(t, innerWidth, events[1..])
      case _ => SteadyFrames(lastTime, innerWidth, events[1..])
  }

  /** Whatever the clicks and frames, a pet that starts inside a viewport at least a pet
      wide, walking left or right, stays inside it, keeps walking left or right, and keeps
      its height. */
  lemma {:induction false} RunStaysInBounds(v: PetView, events: seq<PetEvent>, cfg: PetConfig,
                                            innerWidth: real, hasOnDelete: bool)
    requires 0.0 <= cfg.speed && cfg.petWidth <= innerWidth
    requires InBounds(v.left, innerWidth, cfg.petWidth) && Walks(v.direction) && 0.0 <= v.lastTime
    requires SteadyFrames(v.lastTime, innerWidth, events)
    ensures var r := Run(v, events, cfg, hasOnDelete);
      && InBounds(r.view.left, innerWidth, cfg.petWidth)
      && Walks(r.view.direction)
      && r.view.bottom == v.bottom
    decreases |events|
  {
    if |events| > 0 {
      var r := React(v, events[0], cfg, hasOnDelete);
      if events[0].FrameAt? {
        var tick := Clock(v.lastTime, events[0].timestamp);
        DistanceNonNegative(cfg.speed, tick.delta);
      }
      RunStaysInBounds(r.view, events[1..], cfg, innerWidth, hasOnDelete);
    }
  }

  /** A run asks for deletion exactly when the controller supplied a delete callback and
      some event of the run is a context-menu click. */
  lemma {:induction false} RunDeleteRequests(v: PetView, events: seq<PetEvent>, cfg: PetConfig, hasOnDelete: bool)
    ensures Run(v, events, cfg, hasOnDelete).deleteRequested
      <==> hasOnDelete && exists i :: 0 <= i < |events| && events[i].ContextMenu?
    decreases |events|
  {
    if |events| > 0 {
      var r := React(v, events[0], cfg, hasOnDelete);
      RunDeleteRequests(r.view, events[1..], cfg, hasOnDelete);
      if exists i :: 0 <= i < |events| && events[i].ContextMenu? {
        var i :| 0 <= i < |events| && events[i].ContextMenu?;
        if i > 0 {
          assert events[1..][i - 1].ContextMenu?;
        }
      }
      if exists i :: 0 <= i < |events[1..]| && events[1..][i].ContextMenu? {
        var i :| 0 <= i < |events[1..]| && events[1..][i].ContextMenu?;
        assert events[i + 1].ContextMenu?;
      }
    }
  }
}

=== FILE: pipeline.dfy ===
/** The extension end to end: a popup request passes through the background relay and
    the content script to the page's pet controller, and the popup's storage writes reach
    the controllers through storage change notifications and reload events. */
module Pipeline {
  import opened Wrappers
  import opened Types
  import opened Storage
  import Relay
  import Content
  import Home
  import Popup
  import PetMotion

  /** A tab the relay can deliver to: it has a (truthy) id and is not a browser page. */
  predicate Reachable(t: Relay.Tab) {
    Relay.HasId(t) && !Relay.IsSpecialPage(t.url)
  }

  /** Clicking a pet card while the active tab is reachable and the first delivery lands:
      the relay answers success after one attempt to that tab, so the popup does not alert;
      the content script raises a create event carrying the card's English name and image;
      and the handler the page registered appends one record of that type, standing on the
      floor. It saves the list under `"global-pets"` whatever the mode: in global mode that
      is the corrected behaviour, in per-site mode the site's key keeps its old list. */
  lemma EndToEndCreate(p: PetInfo, tabs: seq<Relay.Tab>, outcomes: seq<bool>,
                       s: Home.HomeState, st: Store, origin: string, sp: Home.Spawn, petWidth: real)
    requires |tabs| > 0 && Reachable(tabs[0])
    requires |outcomes| > 0 && outcomes[0]
    requires Home.ValidSpawn(sp)
    ensures var req := Popup.PetClickRequest(p);
      var relayed := Relay.OnMessage(req, Ok(tabs), tabs, outcomes);
      && relayed.0
      && relayed.1 == Relay.RelayCreate(Relay.CreateReply(SuccessResponse(true), tabs[0].id, 1))
      && !Popup.ShouldAlert(Some(relayed.1.reply.response))
    ensures var h := Content.OnMessage(Popup.PetClickRequest(p), None);
      && h.event == Some(Content.CreateEvent(Some(PetPayload(p.nameEn, p.img))))
      && var e := Home.CreatePetAsWritten(s, st, origin, h.event.value.detail, sp, petWidth);
         && |e.state.pets| == |s.pets| + 1
         && e.state.pets[..|s.pets|] == s.pets
         && e.state.pets[|s.pets|].petType == p.nameEn
         && e.state.pets[|s.pets|].img == p.img
         && e.state.pets[|s.pets|].bottom == 0.0
         && Home.LoadPets(Global, origin, e.store) == e.state.pets
         && (s.mode == Global ==> e == Home.CreatePet(s, st, origin, h.event.value.detail, sp, petWidth))
         && (s.mode == PerSite ==> Home.LoadPets(PerSite, origin, e.store) == Home.LoadPets(PerSite, origin, st))
  {
    var req := Popup.PetClickRequest(p);
    assert req.action == CreatePetAction;
    assert Relay.Delivered(outcomes, 0);
    assert Relay.FirstDelivery(outcomes, Relay.Budget(Relay.DefaultMaxRetries)) == Some(0) by {
      Relay.FirstDeliveryIsFirst(outcomes, Relay.Budget(Relay.DefaultMaxRetries), 0);
    }
    var payload := PetPayload(p.nameEn, p.img);
    Content.EveryMessageAnswered(CreatePet(payload));
    if s.mode == Global {
      Home.CreateAsWrittenAgreesInGlobalMode(s, st, origin, Some(payload), sp, petWidth);
    } else {
      Home.StaleCreateMissesSiteKey(s, st, origin, payload, sp, petWidth);
    }
  }

  /** The popup alerts after a pet click exactly when the relay did not deliver the
      request: a failed tab query, no tab, an unreachable tab, or every attempt failing. */
  lemma AlertIffNotDelivered(query: Result<seq<Relay.Tab>>, outcomes: seq<bool>)
    ensures var reply := Relay.HandleCreatePet(query, outcomes);
      Popup.ShouldAlert(Some(reply.response))
      <==> !(reply.target.Some? && Relay.Deliver(outcomes, Relay.DefaultMaxRetries, Relay.DefaultDelay).ok)
  {
  }

  /** A controller showing the pets of `mode`, settled on the store `st`. */
  predicate Settled(s: Home.HomeState, st: Store, origin: string) {
    s.pets == Home.LoadPets(s.mode, origin, st)
  }

  /** Clearing all pets in the mode a page uses. The change notification removes the page's
      key, so it empties the page, and it does so whenever it arrives last. The reload event
      the popup broadcasts runs the handler as written: on a global page it also shows no
      pets, but on a per-site page it shows the untouched `"global-pets"` list, so a reload
      arriving last leaves that page showing the global pets. */
  lemma ClearAllReachesPage(s: Home.HomeState, st: Store, origin: string, tabs: seq<Relay.Tab>)
    requires Popup.ClearMode(st) == s.mode
    requires Home.StorageKey(s.mode, origin) in st
    requires Home.LoadStorageMode(s.mode, st) == s.mode
    ensures var st' := Popup.ClearAllPets(true, st, tabs).store;
      var changes := Diff(st, st');
      var notified := Home.Notified(s, changes, Home.LocalArea, origin, st');
      && notified == Home.HomeState(s.mode, [])
      && Home.Notified(Home.ReloadPetsAsWritten(s, st', origin), changes, Home.LocalArea, origin, st').pets == []
      && (s.mode == Global ==> Home.ReloadPetsAsWritten(notified, st', origin) == Home.HomeState(Global, []))
      && (s.mode == PerSite ==>
            Home.ReloadPetsAsWritten(notified, st', origin) == Home.HomeState(PerSite, Home.LoadPets(Global, origin, st)))
  {
    var key := Home.StorageKey(s.mode, origin);
    var st' := Popup.ClearAllPets(true, st, tabs).store;
    assert key !in st';
    FixedKeysAreNotSiteKeys();
    assert Get(st', StorageModeKey) == Get(st, StorageModeKey);
    assert key in Diff(st, st');
    assert StorageModeKey !in Diff(st, st');
    if s.mode == PerSite {
      assert Get(st', GlobalPetsKey) == Get(st, GlobalPetsKey);
    }
  }

  /** Clearing all pets in global mode sends a per-site page no change it acts on: the
      notification leaves it exactly as it was, whatever the stored mode. */
  lemma GlobalClearSparesSitePage(s: Home.HomeState, st: Store, origin: string, tabs: seq<Relay.Tab>)
    requires Popup.ClearMode(st) == Global && s.mode == PerSite
    ensures var st' := Popup.ClearAllPets(true, st, tabs).store;
      Home.Notified(s, Diff(st, st'), Home.LocalArea, origin, st') == s
  {
    var st' := Popup.ClearAllPets(true, st, tabs).store;
    var key := Home.StorageKey(PerSite, origin);
    Home.KeyspacesDisjoint(PerSite, origin, Global, origin);
    FixedKeysAreNotSiteKeys();
    assert Get(st', key) == Get(st, key);
    assert Get(st', StorageModeKey) == Get(st, StorageModeKey);
    assert key !in Diff(st, st') && StorageModeKey !in Diff(st, st');
  }

  /** The reload that follows a global clear is another matter. A per-site page with no
      stored mode (the one case in which clear-all acts globally while the page keeps its
      per-site mode) reloads, as written, from the just-removed `"global-pets"` and shows no
      pets, although its own key is untouched and the corrected reload would keep them. */
  lemma GlobalClearReloadEmptiesSitePage(s: Home.HomeState, st: Store, origin: string, tabs: seq<Relay.Tab>)
    requires Popup.ClearMode(st) == Global && s.mode == PerSite
    requires Home.LoadStorageMode(s.mode, st) == PerSite
    ensures var st' := Popup.ClearAllPets(true, st, tabs).store;
      && Home.ReloadPetsAsWritten(s, st', origin) == Home.HomeState(PerSite, [])
      && Home.LoadPets(PerSite, origin, st') == Home.LoadPets(PerSite, origin, st)
      && (Settled(s, st, origin) ==> Home.ReloadPets(s, st', origin) == s)
  {
    var st' := Popup.ClearAllPets(true, st, tabs).store;
    var key := Home.StorageKey(PerSite, origin);
    Home.KeyspacesDisjoint(PerSite, origin, Global, origin);
    FixedKeysAreNotSiteKeys();
    assert Get(st', key) == Get(st, key);
    assert Get(st', StorageModeKey) == Get(st, StorageModeKey);
    assert GlobalPetsKey !in st';
  }

  /** Changing the storage mode from the popup, as the page lives through it. Every order of
      notification and reload ends in the chosen mode. A page that learns of the change from
      the notification first loads the new mode's pets; the reload event that follows then
      runs the handler as written and, the mode being unchanged by then, shows the
      `"global-pets"` list. In global mode that is the right list; a page switched to
      per-site mode ends up showing the global pets. A reload that arrives first, while the
      page is still in its old mode, loads the new mode's pets. */
  lemma ModeChangeReachesPages(m: StorageMode, s: Home.HomeState, st: Store, origin: string,
                               tabs: seq<Relay.Tab>)
    ensures var st' := Popup.ChangeStorageMode(m, st, tabs).store;
      var notified := Home.Notified(s, Diff(st, st'), Home.LocalArea, origin, st');
      && Home.ReloadPetsAsWritten(s, st', origin).mode == m
      && Home.ReloadPetsAsWritten(notified, st', origin).mode == m
      && (s.mode != m ==> Home.ReloadPetsAsWritten(s, st', origin) == Home.HomeState(m, Home.LoadPets(m, origin, st')))
      && (Get(st, StorageModeKey) != Some(Str(ModeName(m))) ==>
            && notified.mode == m
            && (s.mode != m ==> notified.pets == Home.LoadPets(m, origin, st'))
            && Home.ReloadPetsAsWritten(notified, st', origin) == Home.HomeState(m, Home.LoadPets(Global, origin, st')))
  {
    var st' := Popup.ChangeStorageMode(m, st, tabs).store;
    assert Get(st', StorageModeKey) == Some(Str(ModeName(m)));
    if Get(st, StorageModeKey) != Some(Str(ModeName(m))) {
      assert StorageModeKey in Diff(st, st');
    }
  }

  /** One pet's life on the page: rendered from its record, it receives `events`; if any of
      them asks for deletion, the controller deletes it. */
  function PetSession(s: Home.HomeState, st: Store, origin: string, p: PetData,
                      events: seq<PetMotion.PetEvent>, cfg: PetMotion.PetConfig): (e: Home.Effect)
    ensures e.state.mode == s.mode
    ensures forall q :: q in e.state.pets ==> q in s.pets
  {
    var r := PetMotion.Run(PetMotion.InitView(p), events, cfg, true);
    if r.deleteRequested then Home.Delete(s, st, origin, p.id) else Home.Effect(s, st)
  }

  /** Walking and clicking never reach storage: a session without a context-menu click
      leaves the controller and the store exactly as they were, and one with such a click
      removes exactly the records with the pet's id. */
  lemma WalkingNeverPersists(s: Home.HomeState, st: Store, origin: string, p: PetData,
                             events: seq<PetMotion.PetEvent>, cfg: PetMotion.PetConfig)
    ensures (forall i :: 0 <= i < |events| ==> !events[i].ContextMenu?) ==>
      PetSession(s, st, origin, p, events, cfg) == Home.Effect(s, st)
    ensures (exists i :: 0 <= i < |events| && events[i].ContextMenu?) ==>
      forall q :: q in PetSession(s, st, origin, p, events, cfg).state.pets <==> q in s.pets && q.id != p.id
  {
    PetMotion.RunDeleteRequests(PetMotion.InitView(p), events, cfg, true);
  }
}

=== FILE: popup.dfy ===
/** The popup (entrypoints/popup/App.tsx): the pet picker with its "all" category, the
    request a pet card sends, the storage-mode setting, and clearing every stored pet.

    The user's answer to the confirmation dialog and the tabs the browser reports are
    parameters. */
module Popup {
  import opened Wrappers
  import opened Types
  import opened Text
  import opened Storage
  import Relay

  /** Every picker entry shows the chicken's standing sprite. */
  const ChickenStandImg: string := "chicken/stand.gif"

  /** The picker's categories, in display order. */
  const Categories: seq<PetCategory> := [
    PetCategory("cat", "猫", [
      PetInfo("白猫", "white-cat", ChickenStandImg),
      PetInfo("黑猫", "black-cat", ChickenStandImg),
      PetInfo("花猫", "calico-cat", ChickenStandImg),
      PetInfo("橘猫", "orange-cat", ChickenStandImg)]),
    PetCategory("dog", "狗", [
      PetInfo("金毛", "golden-retriever", ChickenStandImg),
      PetInfo("柯基", "corgi", ChickenStandImg),
      PetInfo("柴犬", "shiba", ChickenStandImg),
      PetInfo("田园犬", "mixed-dog", ChickenStandImg)]),
    PetCategory("bird", "鸟", [
      PetInfo("鸡", "chicken", ChickenStandImg),
      PetInfo("柯尔鸭", "call-duck", ChickenStandImg)])
  ]

  const AllCategoryId: string := "all"
  const AllCategoryName: string := "所有"

  /** `categories.map(c => c.pets).flat()`: a pet is listed iff some category lists it. */
  function Flatten(cats: seq<PetCategory>): (ps: seq<PetInfo>)
    ensures forall p :: p in ps <==> exists c :: c in cats && p in c.pets
  {
    if |cats| == 0 then []
    else
      var rest := Flatten(cats[1..]);
      assert forall c :: c in cats[1..] ==> c in cats;
      assert forall c :: c in cats ==> c == cats[0] || c in cats[1..];
      cats[0].pets + rest
  }

  /** Flattening keeps the categories' order: the pets of earlier categories come first. */
  lemma {:induction false} FlattenConcat(a: seq<PetCategory>, b: seq<PetCategory>)
    ensures Flatten(a + b) == Flatten(a) + Flatten(b)
  {
    if |a| == 0 {
      assert a + b == b;
    } else {
      assert (a + b)[1..] == a[1..] + b;
      FlattenConcat(a[1..], b);
    }
  }

  /** The tab list: an "all" category first, listing every category's pets in category
      order, then the categories themselves, unchanged. */
  function AllPets(cats: seq<PetCategory>): (r: seq<PetCategory>)
    ensures |r| == |cats| + 1 && r[1..] == cats
    ensures r[0].id == AllCategoryId && r[0].name == AllCategoryName
    ensures forall p :: p in r[0].pets <==> exists c :: c in cats && p in c.pets
    ensures forall i :: 0 <= i < |cats| ==> r[0].pets == Flatten(cats[..i]) + cats[i].pets + Flatten(cats[i + 1..])
  {
    var all := Flatten(cats);
    forall i | 0 <= i < |cats|
      ensures all == Flatten(cats[..i]) + cats[i].pets + Flatten(cats[i + 1..])
    {
      assert cats == cats[..i] + ([cats[i]] + cats[i + 1..]);
      FlattenConcat(cats[..i], [cats[i]] + cats[i + 1..]);
      assert ([cats[i]] + cats[i + 1..])[1..] == cats[i + 1..];
    }
    [PetCategory(AllCategoryId, AllCategoryName, all)] + cats
  }

  /** `allPets.find(cat => cat.id === selected)?.pets`: the pets of the first tab with that
      id, or nothing when no tab has it. */
  function ShownPets(tabs: seq<PetCategory>, selected: string): (r: Option<seq<PetInfo>>)
    ensures r.None? <==> forall i :: 0 <= i < |tabs| ==> tabs[i].id != selected
    ensures r.Some? ==>
              exists i :: (&& 0 <= i < |tabs| && tabs[i].id == selected && r.value == tabs[i].pets
                           && forall j :: 0 <= j < i ==> tabs[j].id != selected)
  {
    if |tabs| == 0 then None
    else if tabs[0].id == selected then Some(tabs[0].pets)
    else
      var r := ShownPets(tabs[1..], selected);
      if r.Some? then
        var i :| 0 <= i < |tabs[1..]| && tabs[1..][i].id == selected && r.value == tabs[1..][i].pets
          && forall j :: 0 <= j < i ==> tabs[1..][j].id != selected;
        assert tabs[i + 1].id == selected && forall j :: 0 <= j < i + 1 ==> tabs[j].id != selected;
        r
      else r
  }

  /** The "all" tab shows all ten pets, the cat tab's four first. */
  lemma AllTabShowsEveryPet()
    ensures var shown := ShownPets(AllPets(Categories), AllCategoryId);
      && shown.Some? && |shown.value| == 10
      && shown.value[..4] == Categories[0].pets
  {
    var tabs := AllPets(Categories);
    assert tabs[0].id == AllCategoryId;
    assert Flatten(Categories) == Categories[0].pets + Categories[1].pets + Categories[2].pets by {
      assert Categories[1..][1..][1..] == [];
      assert Flatten(Categories[1..][1..][1..]) == [];
    }
  }

  /** The request a pet card sends: a create-pet message with the card's English name and
      image. */
  function PetClickRequest(p: PetInfo): (r: Request)
    ensures Classify(r) == Some(CreatePet(PetPayload(p.nameEn, p.img)))
  {
    ToRequest(CreatePet(PetPayload(p.nameEn, p.img)))
  }

  /** `response && !response.success`: the popup alerts for every response that does not
      report success, a response without a `success` field included. */
  function ShouldAlert(response: Option<MessageResponse>): (alert: bool)
    ensures response.None? ==> !alert
    ensures alert <==> response.Some? && response.value.success != Some(true)
  {
    match response
    case None => false
    case Some(m) => m.success != Some(true)
  }

  const UnknownError: string := "未知错误"

  /** `response.error || "未知错误"`: the reason an alert shows. */
  function AlertReason(m: MessageResponse): (reason: string)
    ensures reason != ""
    ensures m.error.Some? && m.error.value != "" ==> reason == m.error.value
    ensures m.error.None? || m.error.value == "" ==> reason == UnknownError
  {
    match m.error
    case Some(e) => if e != "" then e else UnknownError
    case None => UnknownError
  }

  /** Whether a pet click ends in an alert. `sent` is the outcome of sending the request:
      the response (possibly none) when the send resolved, an error when it was rejected.
      A rejected send always alerts; a resolved one alerts exactly when its response does
      not report success. */
  function PetClickAlerts(sent: Result<Option<MessageResponse>>): (alert: bool)
    ensures sent.Err? ==> alert
    ensures sent == Ok(None) ==> !alert
    ensures sent.Ok? && sent.value.Some? ==> (alert <==> sent.value.value.success != Some(true))
  {
    match sent
    case Err(_) => true
    case Ok(response) => ShouldAlert(response)
  }

  /** Loading the popup's storage-mode setting: a present (truthy) stored value is taken
      over as it is; otherwise the setting keeps its value, initially `"global"`. */
  function LoadModeSetting(current: Value, st: Store): (v: Value)
    ensures Truthy(Get(st, StorageModeKey)) ==> Get(st, StorageModeKey) == Some(v)
    ensures !Truthy(Get(st, StorageModeKey)) ==> v == current
  {
    var stored := Get(st, StorageModeKey);
    if Truthy(stored) then stored.value else current
  }

  const InitialModeSetting: Value := Str(ModeName(Global))

  /** The mode clear-all acts in: `result["storage-mode"] || "global"`, global iff that is
      the string `"global"`. An unset or empty setting means global. */
  function ClearMode(st: Store): (m: StorageMode)
    ensures !Truthy(Get(st, StorageModeKey)) ==> m == Global
    ensures forall n :: Get(st, StorageModeKey) == Some(Str(ModeName(n))) ==> m == n
  {
    var v := if Truthy(Get(st, StorageModeKey)) then Get(st, StorageModeKey).value else Str(ModeName(Global));
    if v == Str(ModeName(Global)) then Global else PerSite
  }

  /** The popup's setting starts as `"global"` and, once loaded, names exactly the mode
      clear-all acts in: it reads `"global"` iff clear-all works globally. */
  lemma SettingAgreesWithClearMode(st: Store)
    ensures LoadModeSetting(InitialModeSetting, st) == Str(ModeName(Global)) <==> ClearMode(st) == Global
    ensures !Truthy(Get(st, StorageModeKey)) ==> LoadModeSetting(InitialModeSetting, st) == Str(ModeName(Global))
  {
  }

  /** The store and the tabs told to reload after a popup action. */
  datatype Outcome = Outcome(store: Store, notified: seq<int>)

  /** Changing the storage mode writes exactly `"storage-mode" := mode`, which clear-all
      then reads back, and tells every tab to reload. */
  function ChangeStorageMode(mode: StorageMode, st: Store, tabs: seq<Relay.Tab>): (r: Outcome)
    ensures r.store.Keys == st.Keys + {StorageModeKey}
    ensures Get(r.store, StorageModeKey) == Some(Str(ModeName(mode)))
    ensures forall k :: k in st && k != StorageModeKey ==> r.store[k] == st[k]
    ensures ClearMode(r.store) == mode
    ensures r.notified == Relay.Broadcast(tabs)
  {
    Outcome(st[StorageModeKey := Str(ModeName(mode))], Relay.Broadcast(tabs))
  }

  /** The per-site pet keys among `keys`, in order. */
  function SiteKeysOf(keys: seq<string>): (r: seq<string>)
    ensures forall k :: k in r <==> k in keys && HasPrefix(k, SitePetsPrefix)
    ensures |r| <= |keys|
  {
    if |keys| == 0 then []
    else
      var init := keys[..|keys| - 1];
      var last := keys[|keys| - 1];
      assert keys == init + [last];
      SiteKeysOf(init) + if HasPrefix(last, SitePetsPrefix) then [last] else []
  }

  /** `Object.keys(allData).filter(key => key.startsWith("pets-"))`. */
  method SelectSiteKeys(keys: seq<string>) returns (r: seq<string>)
    ensures r == SiteKeysOf(keys)
    ensures forall k :: k in r <==> k in keys && HasPrefix(k, SitePetsPrefix)
  {
    r := [];
    var i := 0;
    while i < |keys|
      invariant 0 <= i <= |keys|
      invariant r == SiteKeysOf(keys[..i])
    {
      assert keys[..i + 1][..i] == keys[..i];
      if HasPrefix(keys[i], SitePetsPrefix) {
        r := r + [keys[i]];
      }
      i := i + 1;
    }
    assert keys[..|keys|] == keys;
  }

  /** The keys of a store that belong to the per-site keyspace. */
  function SiteKeySet(st: Store): set<string> {
    set k | k in st && HasPrefix(k, SitePetsPrefix)
  }

  /** Filtering a listing of the store's keys (`Object.keys(allData)`) selects exactly the
      keys per-site clear-all removes, whatever the listing's order or repetitions. */
  lemma {:induction false} SelectedKeysAreSiteKeys(keys: seq<string>, st: Store)
    requires forall k :: k in keys <==> k in st
    ensures (set k | k in SiteKeysOf(keys)) == SiteKeySet(st)
  {
    forall k | k in SiteKeysOf(keys)
      ensures k in SiteKeySet(st)
    {
    }
    forall k | k in SiteKeySet(st)
      ensures k in SiteKeysOf(keys)
    {
    }
  }

  /** "Clear all pets". Declining the confirmation changes nothing and notifies nobody.
      In global mode exactly `"global-pets"` is removed; in per-site mode exactly the keys
      starting with `"pets-"` are removed, so the global pets and both settings survive.
      Every surviving key keeps its value, and every tab is told to reload. */
  function ClearAllPets(confirmed: bool, st: Store, tabs: seq<Relay.Tab>): (r: Outcome)
    ensures !confirmed ==> r == Outcome(st, [])
    ensures confirmed ==> r.notified == Relay.Broadcast(tabs)
    ensures forall k :: k in r.store ==> k in st && r.store[k] == st[k]
    ensures confirmed && ClearMode(st) == Global ==> r.store.Keys == st.Keys - {GlobalPetsKey}
    ensures confirmed && ClearMode(st) == PerSite ==>
      forall k :: k in r.store <==> k in st && !HasPrefix(k, SitePetsPrefix)
    ensures confirmed && ClearMode(st) == PerSite ==>
      forall k :: k in st && k in {GlobalPetsKey, StorageModeKey, InitialPositionKey} ==> k in r.store
  {
    FixedKeysAreNotSiteKeys();
    if !confirmed then Outcome(st, [])
    else if ClearMode(st) == Global then Outcome(st - {GlobalPetsKey}, Relay.Broadcast(tabs))
    else Outcome(st - SiteKeySet(st), Relay.Broadcast(tabs))
  }
}

=== FILE: storage.dfy ===
/** The extension's persistent store, `browser.storage.local`, as a map from key to value,
    together with the change notifications it delivers to listeners. */
module Storage {
  import opened Wrappers
  import opened Types
  import opened Text

  /** What the extension keeps under a key: a setting string, or a list of pets. */
  datatype Value = Str(s: string) | PetList(pets: seq<PetData>)

  type Store = map<string, Value>

  const GlobalPetsKey: string := "global-pets"
  const SitePetsPrefix: string := "pets-"
  const StorageModeKey: string := "storage-mode"
  const InitialPositionKey: string := "initial-position"

  /** `result[key]` after `storage.local.get(key)`: `undefined` when the key is absent. */
  function Get(st: Store, key: string): (v: Option<Value>)
    ensures v.Some? <==> key in st
    ensures v.Some? ==> v.value == st[key]
  {
    if key in st then Some(st[key]) else None
  }

  /** JavaScript truthiness of a read value: `undefined` and `""` are falsy, every array is truthy. */
  predicate Truthy(v: Option<Value>) {
    match v
    case None => false
    case Some(Str(s)) => s != ""
    case Some(PetList(_)) => true
  }

  /** One entry of the `changes` object of `storage.onChanged`: the value after the change,
      `undefined` when the key was removed. */
  datatype Change = Change(newValue: Option<Value>)

  type Changes = map<string, Change>

  /** The `changes` object the browser reports for a store going from `st` to `st'`: one
      entry per key whose value differs. */
  function Diff(st: Store, st': Store): (c: Changes)
    ensures forall k :: k in c <==> (k in st || k in st') && Get(st, k) != Get(st', k)
    ensures forall k :: k in c ==> c[k].newValue == Get(st', k)
  {
    map k | k in st.Keys + st'.Keys && Get(st, k) != Get(st', k) :: Change(Get(st', k))
  }

  /** None of the extension's setting keys, nor the global pets key, lies in the per-site
      keyspace `"pets-" + origin`. */
  lemma FixedKeysAreNotSiteKeys()
    ensures !HasPrefix(GlobalPetsKey, SitePetsPrefix)
    ensures !HasPrefix(StorageModeKey, SitePetsPrefix)
    ensures !HasPrefix(InitialPositionKey, SitePetsPrefix)
  {
    NoCommonPrefix(GlobalPetsKey, SitePetsPrefix, 0);
    NoCommonPrefix(StorageModeKey, SitePetsPrefix, 0);
    NoCommonPrefix(InitialPositionKey, SitePetsPrefix, 0);
  }
}

=== FILE: text.dfy ===
/** String helpers the extension uses through JavaScript built-ins:
    `String.prototype.startsWith` and the decimal rendering of a timestamp. */
module Text {

  /** `s.startsWith(p)`. */
  predicate HasPrefix(s: string, p: string) {
    |p| <= |s| && s[..|p|] == p
  }

  /** A prefix of a string remains a prefix after anything is appended. */
  lemma PrefixOfConcat(p: string, rest: string)
    ensures HasPrefix(p + rest, p)
  {
    assert (p + rest)[..|p|] == p;
  }

  /** A string whose `i`-th character differs from that of `p` does not start with `p`. */
  lemma NoCommonPrefix(s: string, p: string, i: nat)
    requires i < |p| && i < |s| && s[i] != p[i]
    ensures !HasPrefix(s, p)
  {
  }

  /** The decimal digit for `d`. */
  function Digit(d: nat): (c: char)
    requires d < 10
    ensures '0' <= c <= '9'
    ensures c as int - '0' as int == d
  {
    ('0' as int + d) as char
  }

  /** `String(n)` for a non-negative integer `n`, such as `Date.now()`. */
  function NatToString(n: nat): (s: string)
    ensures |s| >= 1
    ensures forall i :: 0 <= i < |s| ==> '0' <= s[i] <= '9'
    ensures DigitsValue(s) == n
  {
    if n < 10 then [Digit(n)] else NatToString(n / 10) + [Digit(n % 10)]
  }

  /** The number a string of decimal digits denotes; the partner of `NatToString`. */
  function DigitsValue(s: string): nat
    requires forall i :: 0 <= i < |s| ==> '0' <= s[i] <= '9'
  {
    if |s| == 0 then 0 else 10 * DigitsValue(s[..|s| - 1]) + (s[|s| - 1] as int - '0' as int)
  }
}

=== FILE: types.dfy ===
/** The records and messages shared by the popup, the background relay and the
    page-side controller (types/index.ts). */
module Types {
  import opened Wrappers

  /** `StorageMode`: one bag of pets for every site, or one bag per origin. */
  datatype StorageMode = Global | PerSite

  /** The string stored under `"storage-mode"` for a mode; parsing it gives the mode back. */
  function ModeName(m: StorageMode): (s: string)
    ensures ParseMode(s) == Some(m)
  {
    match m
    case Global => "global"
    case PerSite => "per-site"
  }

  /** Reads a mode name back; exactly the two names of `ModeName` are modes. */
  function ParseMode(s: string): (r: Option<StorageMode>)
    ensures r.Some? <==> s == "global" || s == "per-site"
  {
    if s == "global" then Some(Global)
    else if s == "per-site" then Some(PerSite)
    else None
  }

  /** The facing of a stored pet: `"left"` or `"right"` and nothing else. */
  datatype Direction = Left | Right

  function DirectionName(d: Direction): string {
    match d
    case Left => "left"
    case Right => "right"
  }

  /** `PetData`, one placed pet as it is stored. `petType` is the source's `type` field. */
  datatype PetData = PetData(
    id: string,
    name: string,
    img: string,
    petType: string,
    left: real,
    bottom: real,
    direction: Direction)

  /** `PetInfo`, one entry of the popup's pet picker. */
  datatype PetInfo = PetInfo(name: string, nameEn: string, img: string)

  /** `PetCategory`, one tab of the popup's pet picker. */
  datatype PetCategory = PetCategory(id: string, name: string, pets: seq<PetInfo>)

  /** The payload `{name, img}` that only a create-pet message carries. */
  datatype PetPayload = PetPayload(name: string, img: string)

  /** `ExtensionMessage`, the closed union of the three messages the extension sends. */
  datatype ExtensionMessage = CreatePet(pet: PetPayload) | ReloadPets | Ping

  /** A message as a listener receives it at run time: the static union is erased, so the
      action is any string and the payload may be missing. */
  datatype Request = Request(action: string, pet: Option<PetPayload>)

  const CreatePetAction: string := "create-pet"
  const ReloadPetsAction: string := "reload-pets"
  const PingAction: string := "ping"

  /** The object literal a sender builds for a message. */
  function ToRequest(m: ExtensionMessage): (r: Request)
    ensures r.pet.Some? <==> m.CreatePet?
    ensures Classify(r) == Some(m)
  {
    match m
    case CreatePet(p) => Request(CreatePetAction, Some(p))
    case ReloadPets => Request(ReloadPetsAction, None)
    case Ping => Request(PingAction, None)
  }

  /** Which member of the union a received object is, if any. */
  function Classify(r: Request): (m: Option<ExtensionMessage>)
    ensures m.Some? ==> r.action in {CreatePetAction, ReloadPetsAction, PingAction}
    ensures r.action == CreatePetAction && r.pet.None? ==> m.None?
  {
    if r.action == CreatePetAction then
      (match r.pet
       case Some(p) => Some(CreatePet(p))
       case None => None)
    else if r.action == ReloadPetsAction then Some(ReloadPets)
    else if r.action == PingAction then Some(Ping)
    else None
  }

  /** A received object classifies as the message whose sender builds an object with the
      same action, and a create-pet object is exactly the one its sender builds. */
  lemma ClassifyInvertsToRequest(r: Request, m: ExtensionMessage)
    requires Classify(r) == Some(m)
    ensures ToRequest(m).action == r.action
    ensures m.CreatePet? ==> ToRequest(m) == r
  {
  }

  /** `MessageResponse`: every field is optional. */
  datatype MessageResponse = MessageResponse(
    success: Option<bool>,
    error: Option<string>,
    ready: Option<bool>)

  /** `{success: false, error: e}` */
  function FailureResponse(e: string): MessageResponse {
    MessageResponse(Some(false), Some(e), None)
  }

  /** `{success: b}` */
  function SuccessResponse(b: bool): MessageResponse {
    MessageResponse(Some(b), None, None)
  }

  /** `{ready: true}` */
  const ReadyResponse: MessageResponse := MessageResponse(None, None, Some(true))
}

=== FILE: wrappers.dfy ===
/** Optional values and results with an error string, used wherever the
    extension reads something that may be absent or an API call may fail. */
module Wrappers {

  /** A value that may be missing (`undefined` in the extension's code). */
  datatype Option<+T> = None | Some(value: T)

  /** The outcome of a browser API call: a value, or the text of the error it threw. */
  datatype Result<+T> = Ok(value: T) | Err(error: string)
}
